=== FILE: README.md ===
# Verified model of three TDD katas: bank OCR, ternary numbers, coffee machine

This project models, in Dafny, the logic of three small C++ exercises and
proves what their code and tests promise.

- **Bank OCR** (`bank_ocr.dfy`, module `BankOcr`; fixtures in
  `bank_ocr_fixtures.dfy`, module `BankOcrFixtures`). A scanning machine
  prints account numbers as three text rows. Every digit is a 3x3 block of
  `' '`, `'_'` and `'|'`. `get_digit` cuts the block at a position out of a
  display. It throws `"Wrong char in digit"` when a character of the block is
  outside that alphabet. The model returns `Err(WrongChar)` in that case.
  `operator==` compares two digits row by row. `parse_digit` scans the table
  of the ten canonical glyphs and returns the first matching index, or 10.
  - The model proves that an extracted block is exactly the display's slice.
  - It proves that extraction fails exactly on a foreign character.
  - It proves that the table's glyphs are well formed and pairwise distinct.
  - It proves that every canonical glyph is recognised as its own digit.
  - It proves that every fixture display of the tests reads as its digits.
- **Ternary numbers** (`ternary.dfy`, module `TernaryNumbers`).
  `parse_ternary` reads a string of `'0'`, `'1'`, `'2'` as a base-3 number.
  It reads the empty string as 0, and also any string with another symbol
  anywhere in it.
  - The loop is a method proved equal to a place-value function.
  - That function is proved equal to Horner's reading and bounded by 3^n.
  - Leading zeros are proved not to change the value.
  - The value is proved to fit in `uint32_t` for strings of at most 20 symbols.
- **Coffee machine** (`coffee.dfy`, module `CoffeeMachines`).
  `CoffeeMachine::CreateCoffee` drives a source of ingredients through a
  fixed sequence of calls. The source is a class that records every call in
  a log. `CreateCoffee` is proved to append exactly `Recipe(cup, coffee)` to
  that log.
  - Lemmas give the calls each test expects, each once, in the order
    `CreateCoffee` makes them; the tests themselves accept any order, which
    a multiset lemma states.
  - The cup size is set first and only once.
  - No method of the source is called twice.
  - Sugar, chocolate and cream are never added.
  - An americano fills the cup exactly with coffee and water.

`Reading`, `Collect`, `ParseDisplay`, `RenderRow` and `Shows` are additions
to the bank OCR code. The tests call a `parse_display` that the repository
never defines. `ParseDisplay` reads each of the nine blocks on its own and
collects the values left to right. An unrecognised block stays in place as
10. A foreign character fails the whole display with the error of the
leftmost bad block.
`RenderRow` and `Shows` describe the printed format in the kata's
description. They are the inverse against which reading a display is proved.

## Model

| member | source | states |
|---|---|---|
| `BankOcr.LinesEqualFrom` | tdd_intro/homework/03_bank_ocr/test.cpp:98-104 | the row-by-row scan from row i is true exactly when every row from i on is equal |
| `BankOcr.DigitEquals` | tdd_intro/homework/03_bank_ocr/test.cpp:97-105 | `operator==` holds exactly when the two digits are equal, so it is reflexive and symmetric, and one differing character makes it false |
| `BankOcr.CanonicalAreGlyphs` | tdd_intro/homework/03_bank_ocr/test.cpp:113-152 | each of the ten canonical glyphs is 3 rows of exactly 3 characters from space, underscore and pipe |
| `BankOcr.CanonicalDistinct` | tdd_intro/homework/03_bank_ocr/test.cpp:222-225 | no two entries of the glyph table are equal |
| `BankOcr.GetDigit` | tdd_intro/homework/03_bank_ocr/test.cpp:209-220 | the row-by-row loop with its inner character check returns the block at `index` when all its characters are allowed, and the `WrongChar` error otherwise |
| `BankOcr.ExtractedIsSlice` | tdd_intro/homework/03_bank_ocr/test.cpp:209-212 | a successful extraction returns a well-formed glyph whose row r is characters [3*index, 3*index+3) of display row r |
| `BankOcr.ExtractFailsIffBadChar` | tdd_intro/homework/03_bank_ocr/test.cpp:213-216 | extraction fails exactly when some display character in columns [3*index, 3*index+3) of some row is not a space, an underscore or a pipe |
| `BankOcr.FindFrom` | tdd_intro/homework/03_bank_ocr/test.cpp:228-234 | the table scan from entry i returns the first matching entry at or after i, or 10 when none of them matches |
| `BankOcr.ParseDigit` | tdd_intro/homework/03_bank_ocr/test.cpp:227-235 | the result is at most 10; a result r < 10 means the digit equals table entry r and no earlier entry; 10 is returned exactly when no entry matches |
| `BankOcr.ParseCanonical` | tdd_intro/homework/03_bank_ocr/test.cpp:262-268 | round trip: the canonical glyph of d parses to d for every d in 0..9 |
| `BankOcr.CollectSpec` | tdd_intro/homework/03_bank_ocr/test.cpp:270-272 | (addition) collecting per-block results succeeds exactly when every block does, then keeps every value in place; otherwise it gives the error of the first failing block, all blocks before it having succeeded |
| `BankOcr.ParseDisplay` | tdd_intro/homework/03_bank_ocr/test.cpp:270-272 | (addition) a display reads as 9 values exactly when every block extracts; each value is the `parse_digit` of its block and at most 10; a failure carries "Wrong char in digit" |
| `BankOcr.RenderRow` | tdd_intro/homework/03_bank_ocr/test.cpp:8-14 | (addition) a printed row is 3 characters per digit, side by side |
| `BankOcr.RenderRowSlice` | tdd_intro/homework/03_bank_ocr/test.cpp:8-14 | (addition) block i of a printed row is that row of the i-th digit's canonical glyph |
| `BankOcr.ExtractShown` | tdd_intro/homework/03_bank_ocr/test.cpp:209-220 | extracting block i from a printed display gives back the canonical glyph of the i-th digit |
| `BankOcr.ParseShown` | tdd_intro/homework/03_bank_ocr/test.cpp:20-84 | (addition) round trip: a printed nine-digit display reads back as exactly its digits |
| `BankOcrFixtures.ReadsUniform` | tdd_intro/homework/03_bank_ocr/test.cpp:154-202 | a display printing nine copies of d has the glyph of d in every block and reads as d nine times |
| `BankOcrFixtures.ReadsAll0` | tdd_intro/homework/03_bank_ocr/test.cpp:154-157 | every block of `s_displayAll0` is `s_digit0`, and the display reads 000000000 |
| `BankOcrFixtures.ReadsAll1` | tdd_intro/homework/03_bank_ocr/test.cpp:159-162 | every block of `s_displayAll1` is `s_digit1`, and the display reads 111111111 |
| `BankOcrFixtures.ReadsAll2` | tdd_intro/homework/03_bank_ocr/test.cpp:164-167 | every block of `s_displayAll2` is `s_digit2`, and the display reads 222222222 |
| `BankOcrFixtures.ReadsAll3` | tdd_intro/homework/03_bank_ocr/test.cpp:169-172 | every block of `s_displayAll3` is `s_digit3`, and the display reads 333333333 |
| `BankOcrFixtures.ReadsAll4` | tdd_intro/homework/03_bank_ocr/test.cpp:174-177 | every block of `s_displayAll4` is `s_digit4`, and the display reads 444444444 |
| `BankOcrFixtures.ReadsAll5` | tdd_intro/homework/03_bank_ocr/test.cpp:179-182 | every block of `s_displayAll5` is `s_digit5`, and the display reads 555555555 |
| `BankOcrFixtures.ReadsAll6` | tdd_intro/homework/03_bank_ocr/test.cpp:184-187 | every block of `s_displayAll6` is `s_digit6`, and the display reads 666666666 |
| `BankOcrFixtures.ReadsAll7` | tdd_intro/homework/03_bank_ocr/test.cpp:189-192 | every block of `s_displayAll7` is `s_digit7`, and the display reads 777777777 |
| `BankOcrFixtures.ReadsAll8` | tdd_intro/homework/03_bank_ocr/test.cpp:194-197 | every block of `s_displayAll8` is `s_digit8`, and the display reads 888888888 |
| `BankOcrFixtures.ReadsAll9` | tdd_intro/homework/03_bank_ocr/test.cpp:199-202 | every block of `s_displayAll9` is `s_digit9`, and the display reads 999999999 |
| `BankOcrFixtures.Reads123456789` | tdd_intro/homework/03_bank_ocr/test.cpp:204-207 | block i of `s_display123456789` is the canonical glyph of i+1, and the display reads 123456789 |
| `BankOcrFixtures.FifthDigitIsFive` | tdd_intro/homework/03_bank_ocr/test.cpp:257-268 | `get_digit(s_display123456789, 4) == s_digit5`, and `parse_digit(s_digit5) == 5` |
| `BankOcrFixtures.InvalidCharFails` | tdd_intro/homework/03_bank_ocr/test.cpp:249-255 | the display with `'#'` in its first block makes `get_digit(..., 0)` fail with "Wrong char in digit" |
| `BankOcrFixtures.ZeroIsNotEight` | tdd_intro/homework/03_bank_ocr/test.cpp:274-279 | `s_digit0 == s_digit0` and `!(s_digit0 == s_digit8)` |
| `TernaryNumbers.DigitCode` | tdd_intro/homework/02_ternary_numbers/test.cpp:32-35 | `str[i] - '0'` wrapped to `uint32_t` is below the base exactly for `'0'`..`'2'`, and then it is the digit; every symbol below `'0'` wraps to at least 2^32 - 48 |
| `TernaryNumbers.Pow3` | tdd_intro/homework/02_ternary_numbers/test.cpp:37 | the exact power of 3 used as a place weight is at least 1 |
| `TernaryNumbers.Value` | tdd_intro/homework/02_ternary_numbers/test.cpp:13-18 | the place-value reading of an n-symbol ternary string is below 3^n |
| `TernaryNumbers.ValueAppend` | tdd_intro/homework/02_ternary_numbers/test.cpp:37 | Horner step: appending digit d to a valid string s gives 3 * value(s) + d |
| `TernaryNumbers.ValueIsHorner` | tdd_intro/homework/02_ternary_numbers/test.cpp:30-38 | the place-value sum equals Horner's evaluation for every ternary string |
| `TernaryNumbers.LeadingZeros` | tdd_intro/homework/02_ternary_numbers/test.cpp:37 | any number of leading `'0'` symbols leave the value unchanged |
| `TernaryNumbers.FitsUint32` | tdd_intro/homework/02_ternary_numbers/test.cpp:30-40 | a ternary string of at most 20 symbols has a value below 2^32 |
| `TernaryNumbers.ParseTernary` | tdd_intro/homework/02_ternary_numbers/test.cpp:23-41 | the result is the place-value reading of a ternary string and 0 for every other string, the empty string and a bad symbol after a valid prefix included |
| `TernaryNumbers.Examples` | tdd_intro/homework/02_ternary_numbers/test.cpp:43-61 | `""` reads 0, `"1"` reads 1, `"10"` reads 3, `"102012"` reads 302, and `"a10"` is not ternary |
| `CoffeeMachines.SourceOfIngredients.constructor` | tdd_intro/homework/06_coffee/test.cpp:47-58 | a fresh source has received no calls |
| `CoffeeMachines.SourceOfIngredients.SetCupSize` | tdd_intro/homework/06_coffee/test.cpp:24 | appends `SetCupSize(gram)` to the call log and changes nothing else |
| `CoffeeMachines.SourceOfIngredients.AddWater` | tdd_intro/homework/06_coffee/test.cpp:25 | appends `AddWater(gram, temperature)` to the call log |
| `CoffeeMachines.SourceOfIngredients.AddSugar` | tdd_intro/homework/06_coffee/test.cpp:26 | appends `AddSugar(gram)` to the call log |
| `CoffeeMachines.SourceOfIngredients.AddCoffee` | tdd_intro/homework/06_coffee/test.cpp:27 | appends `AddCoffee(gram)` to the call log |
| `CoffeeMachines.SourceOfIngredients.AddMilk` | tdd_intro/homework/06_coffee/test.cpp:28 | appends `AddMilk(gram)` to the call log |
| `CoffeeMachines.SourceOfIngredients.AddMilkFoam` | tdd_intro/homework/06_coffee/test.cpp:29 | appends `AddMilkFoam(gram)` to the call log |
| `CoffeeMachines.SourceOfIngredients.AddChocolate` | tdd_intro/homework/06_coffee/test.cpp:30 | appends `AddChocolate(gram)` to the call log |
| `CoffeeMachines.SourceOfIngredients.AddCream` | tdd_intro/homework/06_coffee/test.cpp:31 | appends `AddCream(gram)` to the call log |
| `CoffeeMachines.CoffeeMachine.constructor` | tdd_intro/homework/06_coffee/test.cpp:63-66 | the machine holds the given source by reference |
| `CoffeeMachines.CoffeeMachine.CreateCoffee` | tdd_intro/homework/06_coffee/test.cpp:67-79 | the source's log grows by exactly `Recipe(cup, coffee)`: the cup size, then the ingredients for that size |
| `CoffeeMachines.CoffeeMachine.CreateNormalCoffee` | tdd_intro/homework/06_coffee/test.cpp:82-95 | a normal americano adds coffee 75 then water 25 at 60; a normal cappuccino adds coffee, milk, milk foam 33 each |
| `CoffeeMachines.CoffeeMachine.CreateBigCoffee` | tdd_intro/homework/06_coffee/test.cpp:97-105 | a big americano adds coffee 105 then water 35 at 60; a big cappuccino adds nothing |
| `CoffeeMachines.CoffeeMachine.CreateCoffeeCorrected` | tdd_intro/homework/06_coffee/test.cpp:67-79 | corrected: the source's log grows by exactly the proportional recipe, so every drink matches its test |
| `CoffeeMachines.CoffeeMachine.CreateBigCoffeeCorrected` | tdd_intro/homework/06_coffee/test.cpp:97-105 | corrected: a big cappuccino adds coffee, milk and milk foam, 46 g each, as the test at lines 184-196 expects |
| `CoffeeMachines.CupSizeSetOnceFirst` | tdd_intro/homework/06_coffee/test.cpp:67-69 | the first call sets the cup size to the cup's grams (100 or 140), and no later call sets it again |
| `CoffeeMachines.NoMethodCalledTwice` | tdd_intro/homework/06_coffee/test.cpp:131-141 | no method of the source is called more than once while one coffee is made |
| `CoffeeMachines.NoSugarChocolateOrCream` | tdd_intro/homework/06_coffee/test.cpp:67-105 | `AddSugar`, `AddChocolate` and `AddCream` are never called |
| `CoffeeMachines.AmericanoFillsCup` | tdd_intro/homework/06_coffee/test.cpp:85-102 | an americano's coffee and water grams add up to the cup's grams, and the water is at 60 degrees |
| `CoffeeMachines.TracesOfTests` | tdd_intro/homework/06_coffee/test.cpp:144-182 | the calls each of the normal americano, big americano and normal cappuccino tests expects, each once, in the order `CreateCoffee` makes them |
| `CoffeeMachines.AmericanoCallsOfTest` | tdd_intro/homework/06_coffee/test.cpp:143-155 | the normal americano's calls, as a multiset (once each, any order), are exactly the test's `AddCoffee(75)`, `SetCupSize(100)`, `AddWater(25, 60)` |
| `CoffeeMachines.AmericanoBigCallsOfTest` | tdd_intro/homework/06_coffee/test.cpp:157-168 | the big americano's calls, as a multiset, are exactly the test's `AddCoffee(105)`, `SetCupSize(140)`, `AddWater(35, 60)` |
| `CoffeeMachines.CappuccinoCallsOfTest` | tdd_intro/homework/06_coffee/test.cpp:170-182 | the normal cappuccino's calls, as a multiset, are exactly the test's `SetCupSize(100)` and 33 g each of coffee, milk and milk foam |
| `CoffeeMachines.CappuccinoBigCallsOfTest` | tdd_intro/homework/06_coffee/test.cpp:184-196 | the proportional big cappuccino's calls, as a multiset, are exactly the test's `SetCupSize(140)` and 46 g each of coffee, milk and milk foam; the code as written does not give them |
| `CoffeeMachines.BigCappuccinoIsEmpty` | tdd_intro/homework/06_coffee/test.cpp:97-105 | as written, a big cappuccino only sets the cup size to 140, unlike the proportional recipe |
| `CoffeeMachines.ProportionalRecipeMatchesTests` | tdd_intro/homework/06_coffee/test.cpp:184-196 | the proportional recipes give 46 g each of coffee, milk and foam for a big cappuccino, and agree with the code on the other three drinks |
| `CoffeeMachines.MakeOne` | tdd_intro/homework/06_coffee/test.cpp:144-196 | a machine on a fresh source records exactly the recipe's calls, in the order `CreateCoffee` makes them; each test checks these calls once each, in any order, through its mock |
| `CoffeeMachines.MakeOneCorrected` | tdd_intro/homework/06_coffee/test.cpp:184-196 | the corrected machine on a fresh source records exactly the proportional recipe's calls, the calls the big cappuccino test expects included |

## Left out

- The gtest and gmock machinery (`TEST`, `EXPECT_CALL`, `MOCK_METHOD*`) is not modelled. The tests' expected values appear as lemmas. `MockSourceOfIngredients` becomes the call-logging `SourceOfIngredients`.
- `BankOcr.GetDigit` requires every display row to reach column `3*index+3`. `std::string::substr` throws `out_of_range` past the end and truncates short rows; neither is modelled. The kata's description asks for 27-character rows, but `get_digit` does not check the width. The model follows the code.
- `BankOcr.ParseDisplay`: `parse_display` is called by a test but never defined in the repository. The model's version is an addition, not the repository's behaviour.
- `parse_digit` returns `uint8_t`; the model returns a `nat` that is proved to be at most 10.
- `TernaryNumbers.ParseTernary` does not model 32-bit overflow. Its result is an unbounded `nat`. The source converts `result + v * pow(...)` from `double` to `uint32_t`, which is undefined once the value reaches 2^32. `FitsUint32` shows this cannot happen for strings of at most 20 symbols. The conversion is also undefined for a string of 648 or more symbols whose first symbol is `'0'`, even though its value may be small: `std::pow(3, 647)` overflows the `double` range to infinity, `0 * inf` is NaN, and converting NaN to `uint32_t` is undefined. The model reports `Value(str)` for such strings. Likewise, for a non-ternary string whose valid prefix already reaches one of these cases (twenty-one `'2'` symbols followed by `'a'`, or 648 or more symbols starting with `'0'` with a bad symbol later), the source's behaviour is undefined before the loop reaches the bad symbol, while the model returns 0.
- `std::pow` works in floating point; the model uses exact integer powers. Powers of 3 are exact in a `double` up to 3^33.
- Characters are Dafny `char`s (Unicode scalar values), not C++ `char`, which may be signed. The wrap of `str[i] - '0'` into `uint32_t` is modelled explicitly for every character below `'0'`.
- C++ enums can hold values other than their named ones (`Cup` of neither 100 nor 140). `CreateCoffee` would then set that cup size and add nothing. The model's `Cup` and `Coffee` have only the named values.
- The weather client (`tdd_intro/homework/04_weather_client/test.cpp`) is not part of this model. It is floating-point code over a mocked server and has methods with empty bodies.
- The word counter (`tdd_intro/demo/02_word_count/test.cpp`) is not part of this model. It is a stub that always returns an empty map.

## Findings

| source | as written | input that shows it | evidently intended | confidence | as-written member | corrected member |
|---|---|---|---|---|---|---|
| tdd_intro/homework/06_coffee/test.cpp:97-105 | `CreateBigCoffee` has no `Cappuccino` case, so a big cappuccino only calls `SetCupSize(140)` and puts nothing in the cup | `CreateCoffee(Cup::Big, Coffee::Cappuccino)` | `AddCoffee(46)`, `AddMilk(46)`, `AddMilkFoam(46)`, as the test at lines 184-196 expects and the 1:3 cappuccino recipe gives | high (not executed) | `CoffeeMachines.BigCappuccinoIsEmpty` | `CoffeeMachines.MakeOneCorrected` |

=== FILE: bank_ocr.dfy ===
/**
  Bank OCR: a scanning machine prints account numbers as three text rows in
  which every digit is a 3x3 block of ' ', '_' and '|'. This module cuts a
  digit block out of a display, rejects blocks with any other character, and
  recognises a block by comparing it with the table of the ten canonical
  digit glyphs.
 */
module BankOcr {

  /** Width of one digit, in characters. */
  const DigitLen: nat := 3
  /** Rows of one digit, and of a display. */
  const LinesInDigit: nat := 3
  /** Digits on one display. */
  const DigitsOnDisplay: nat := 9
  /** Characters in a display row: nine digits side by side. */
  const DisplayWidth: nat := 27

  /** The fixed array of three text rows held by a digit or a display. */
  type Rows = s: seq<string> | |s| == LinesInDigit witness ["", "", ""]

  /** A digit block: three rows, top to bottom. */
  datatype Digit = Digit(lines: Rows)

  /** A scanned display: three rows holding the digits side by side. */
  datatype Display = Display(lines: Rows)

  /** The outcome of an operation that may throw. */
  datatype Result<T> = Ok(value: T) | Err(message: string)

  /** The message of the error thrown for a character outside the glyph alphabet. */
  const WrongChar: string := "Wrong char in digit"

  /** The glyph alphabet. */
  predicate Allowed(c: char) {
    c == ' ' || c == '_' || c == '|'
  }

  predicate AllAllowed(s: string) {
    forall k :: 0 <= k < |s| ==> Allowed(s[k])
  }

  /** A well-formed glyph: every row is exactly 3 characters of the alphabet. */
  predicate IsGlyph(d: Digit) {
    forall r :: 0 <= r < LinesInDigit ==> |d.lines[r]| == DigitLen && AllAllowed(d.lines[r])
  }

  // ---------------------------------------------------------------------------
  // Equality of digits
  // ---------------------------------------------------------------------------

  /** Rows `i` and below of two digits, compared in order; the first differing row decides. */
  function LinesEqualFrom(lhs: Digit, rhs: Digit, i: nat): (eq: bool)
    requires i <= LinesInDigit
    ensures eq <==> forall r :: i <= r < LinesInDigit ==> lhs.lines[r] == rhs.lines[r]
    decreases LinesInDigit - i
  {
    if i == LinesInDigit then true
    else if lhs.lines[i] != rhs.lines[i] then false
    else LinesEqualFrom(lhs, rhs, i + 1)
  }

  /**
    `operator==` on digits: row-wise string comparison. It holds exactly
    when the two digits are the same value, so it is reflexive and symmetric,
    and two digits that differ in a single character compare unequal.
   */
  function DigitEquals(lhs: Digit, rhs: Digit): (eq: bool)
    ensures eq <==> lhs == rhs
  {
    LinesEqualFrom(lhs, rhs, 0)
  }

  // ---------------------------------------------------------------------------
  // The table of canonical glyphs
  // ---------------------------------------------------------------------------

  const Digit0: Digit := Digit([" _ ",
                                "| |",
                                "|_|"])
  const Digit1: Digit := Digit(["   ",
                                "  |",
                                "  |"])
  const Digit2: Digit := Digit([" _ ",
                                " _|",
                                "|_ "])
  const Digit3: Digit := Digit([" _ ",
                                " _|",
                                " _|"])
  const Digit4: Digit := Digit(["   ",
                                "|_|",
                                "  |"])
  const Digit5: Digit := Digit([" _ ",
                                "|_ ",
                                " _|"])
  const Digit6: Digit := Digit([" _ ",
                                "|_ ",
                                "|_|"])
  const Digit7: Digit := Digit([" _ ",
                                "  |",
                                "  |"])
  const Digit8: Digit := Digit([" _ ",
                                "|_|",
                                "|_|"])
  const Digit9: Digit := Digit([" _ ",
                                "|_|",
                                " _|"])

  /** Entry d is the canonical glyph of the decimal digit d. */
  const AllDigits: seq<Digit> :=
    [Digit0, Digit1, Digit2, Digit3, Digit4, Digit5, Digit6, Digit7, Digit8, Digit9]

  /** What `parse_digit` returns for a block that matches no canonical glyph. */
  const Unrecognized: nat := 10

  /** Every canonical glyph is 3 rows of 3 characters of the alphabet. */
  lemma CanonicalAreGlyphs()
    ensures forall d :: 0 <= d < |AllDigits| ==> IsGlyph(AllDigits[d])
  {
    forall d | 0 <= d < |AllDigits|
      ensures IsGlyph(AllDigits[d])
    {
      var g := AllDigits[d];
      assert AllAllowed(g.lines[0]) && AllAllowed(g.lines[1]) && AllAllowed(g.lines[2]);
    }
  }

  /** No two entries of the table are the same glyph. */
  lemma CanonicalDistinct()
    ensures forall i, j :: 0 <= i < j < |AllDigits| ==> AllDigits[i] != AllDigits[j]
  {
  }

  // ---------------------------------------------------------------------------
  // Cutting a digit out of a display
  // ---------------------------------------------------------------------------

  /** Every row of the display reaches the end of the block at position `index`. */
  predicate Fits(display: Display, index: nat) {
    forall r :: 0 <= r < LinesInDigit ==> 3 * index + DigitLen <= |display.lines[r]|
  }

  /** Characters [3*index, 3*index+3) of one display row. */
  function Slice(row: string, index: nat): string
    requires 3 * index + DigitLen <= |row|
  {
    row[3 * index .. 3 * index + DigitLen]
  }

  /** The 3x3 block at digit position `index`, unchecked. */
  function Block(display: Display, index: nat): Digit
    requires Fits(display, index)
  {
    Digit([Slice(display.lines[0], index),
           Slice(display.lines[1], index),
           Slice(display.lines[2], index)])
  }

  /**
    What `get_digit` computes: the block at `index` when all its characters
    are in the alphabet, the `WrongChar` error otherwise.
   */
  function ExtractDigit(display: Display, index: nat): Result<Digit>
    requires Fits(display, index)
  {
    var block := Block(display, index);
    if forall r :: 0 <= r < LinesInDigit ==> AllAllowed(block.lines[r]) then Ok(block)
    else Err(WrongChar)
  }

  /**
    `get_digit`: takes each row's slice in turn and throws as soon as it
    meets a character outside the alphabet.
   */
  method GetDigit(display: Display, index: nat) returns (result: Result<Digit>)
    requires Fits(display, index)
    ensures result == ExtractDigit(display, index)
  {
    var lines: seq<string> := [];
    for i := 0 to LinesInDigit
      invariant |lines| == i
      invariant forall r :: 0 <= r < i ==> lines[r] == Slice(display.lines[r], index)
      invariant forall r :: 0 <= r < i ==> AllAllowed(lines[r])
    {
      var line := display.lines[i][3 * index .. 3 * index + DigitLen];
      lines := lines + [line];
      for k := 0 to |line|
        invariant forall m :: 0 <= m < k ==> Allowed(line[m])
      {
        var c := line[k];
        if c != ' ' && c != '_' && c != '|' {
          assert !AllAllowed(Block(display, index).lines[i]);
          return Err(WrongChar);
        }
      }
    }
    assert lines == Block(display, index).lines;
    return Ok(Digit(lines));
  }

  /**
    A successful extraction returns the display's characters
    [3*index, 3*index+3) of each row, so every row is 3 characters wide, and
    the result is a well-formed glyph.
   */
  lemma ExtractedIsSlice(display: Display, index: nat)
    requires Fits(display, index)
    ensures ExtractDigit(display, index).Ok? ==>
      var g := ExtractDigit(display, index).value;
      IsGlyph(g) &&
      forall r :: 0 <= r < LinesInDigit ==>
        g.lines[r] == display.lines[r][3 * index .. 3 * index + DigitLen]
  {
  }

  /**
    Extraction fails exactly when some character of the block, read straight
    off the display, is outside the alphabet.
   */
  lemma ExtractFailsIffBadChar(display: Display, index: nat)
    requires Fits(display, index)
    ensures ExtractDigit(display, index).Err? <==>
      exists r, col :: 0 <= r < LinesInDigit && 3 * index <= col < 3 * index + DigitLen &&
        !Allowed(display.lines[r][col])
  {
    var block := Block(display, index);
    if ExtractDigit(display, index).Err? {
      var r :| 0 <= r < LinesInDigit && !AllAllowed(block.lines[r]);
      var k :| 0 <= k < DigitLen && !Allowed(block.lines[r][k]);
      assert block.lines[r][k] == display.lines[r][3 * index + k];
    } else {
      forall r, col | 0 <= r < LinesInDigit && 3 * index <= col < 3 * index + DigitLen
        ensures Allowed(display.lines[r][col])
      {
        assert block.lines[r][col - 3 * index] == display.lines[r][col];
      }
    }
  }

  // ---------------------------------------------------------------------------
  // Recognising a digit
  // ---------------------------------------------------------------------------

  /** The table scan from entry `i` on: the first matching entry, or `Unrecognized`. */
  function FindFrom(digit: Digit, i: nat): (r: nat)
    requires i <= |AllDigits|
    ensures i <= r <= Unrecognized
    ensures r < Unrecognized ==> digit == AllDigits[r]
    ensures forall j :: i <= j < r && j < |AllDigits| ==> digit != AllDigits[j]
    decreases |AllDigits| - i
  {
    if i == |AllDigits| then Unrecognized
    else if DigitEquals(digit, AllDigits[i]) then i
    else FindFrom(digit, i + 1)
  }

  /**
    `parse_digit`: the index of the first canonical glyph equal to `digit`,
    or `Unrecognized` (10) when there is none.
   */
  function ParseDigit(digit: Digit): (r: nat)
    ensures r <= Unrecognized
    ensures r < Unrecognized ==> digit == AllDigits[r] && forall j :: 0 <= j < r ==> digit != AllDigits[j]
    ensures r == Unrecognized <==> forall j :: 0 <= j < |AllDigits| ==> digit != AllDigits[j]
  {
    FindFrom(digit, 0)
  }

  /** Round trip: the canonical glyph of d is recognised as d. */
  lemma ParseCanonical(d: nat)
    requires d < |AllDigits|
    ensures ParseDigit(AllDigits[d]) == d
  {
    CanonicalDistinct();
  }

  // ---------------------------------------------------------------------------
  // Reading a whole display (an addition: see README)
  // ---------------------------------------------------------------------------

  /** Every row is wide enough for all nine digits. */
  predicate Wide(display: Display) {
    forall r :: 0 <= r < LinesInDigit ==> DisplayWidth <= |display.lines[r]|
  }

  /**
    Position `p` of a display read on its own: the recognised value of its
    block, or the error of cutting the block out.
   */
  function Reading(display: Display, p: nat): Result<nat>
    requires Wide(display) && p < DigitsOnDisplay
  {
    match ExtractDigit(display, p)
    case Err(e) => Err(e)
    case Ok(g) => Ok(ParseDigit(g))
  }

  /** All the values of `rs` in order, or the first error among them. */
  function Collect<T>(rs: seq<Result<T>>): Result<seq<T>> {
    if rs == [] then Ok([])
    else
      match Collect(rs[..|rs| - 1])
      case Err(e) => Err(e)
      case Ok(init) =>
        match rs[|rs| - 1]
        case Err(e) => Err(e)
        case Ok(v) => Ok(init + [v])
  }

  /**
    `Collect` succeeds exactly when every entry does, and then gives every
    entry's value in place; otherwise it gives the error of the first
    failing entry.
   */
  lemma {:induction false} CollectSpec<T>(rs: seq<Result<T>>)
    ensures var r := Collect(rs);
      && (r.Ok? <==> forall p :: 0 <= p < |rs| ==> rs[p].Ok?)
      && (r.Ok? ==> |r.value| == |rs| && forall p :: 0 <= p < |rs| ==> rs[p] == Ok(r.value[p]))
      && (r.Err? ==> exists p :: 0 <= p < |rs| && rs[p] == Err(r.message) &&
                       forall q :: 0 <= q < p ==> rs[q].Ok?)
  {
    if rs != [] {
      var init := rs[..|rs| - 1];
      CollectSpec(init);
      var prev := Collect(init);
      assert forall p :: 0 <= p < |init| ==> init[p] == rs[p];
      if prev.Ok? && rs[|rs| - 1].Ok? {
        var v := prev.value + [rs[|rs| - 1].value];
        assert Collect(rs) == Ok(v);
        assert forall p :: 0 <= p < |init| ==> v[p] == prev.value[p];
      }
    }
  }

  /** The nine positions of a display, each read on its own. */
  function Readings(display: Display): seq<Result<nat>>
    requires Wide(display)
  {
    seq(DigitsOnDisplay, p requires 0 <= p < DigitsOnDisplay && Wide(display) => Reading(display, p))
  }

  /**
    Entry p of the readings is the recognised value of block p, or the
    "Wrong char in digit" error when that block cannot be cut out.
   */
  lemma ReadingsMatchBlocks(display: Display)
    requires Wide(display)
    ensures |Readings(display)| == DigitsOnDisplay
    ensures forall p :: 0 <= p < DigitsOnDisplay ==>
      Readings(display)[p] ==
        if ExtractDigit(display, p).Ok? then Ok(ParseDigit(ExtractDigit(display, p).value)) else Err(WrongChar)
  {
  }

  /**
    The nine digits of a display, left to right; an unrecognised block stays
    in place as `Unrecognized`, while a block with a character outside the
    alphabet makes the whole display fail, with the error of the leftmost
    such block.
   */
  function ParseDisplay(display: Display): (r: Result<seq<nat>>)
    requires Wide(display)
    ensures r.Ok? <==> forall p :: 0 <= p < DigitsOnDisplay ==> ExtractDigit(display, p).Ok?
    ensures r.Ok? ==>
      |r.value| == DigitsOnDisplay &&
      forall p :: 0 <= p < DigitsOnDisplay ==>
        r.value[p] <= Unrecognized && r.value[p] == ParseDigit(ExtractDigit(display, p).value)
    ensures r.Err? ==> r.message == WrongChar
  {
    var rs := Readings(display);
    ReadingsMatchBlocks(display);
    CollectSpec(rs);
    Collect(rs)
  }

  // ---------------------------------------------------------------------------
  // Printing a display: the machine's format, the inverse of reading one
  // ---------------------------------------------------------------------------

  /** Row `r` of the canonical glyphs of `digits`, side by side with no separator. */
  function RenderRow(digits: seq<nat>, r: nat): (row: string)
    requires r < LinesInDigit
    requires forall i :: 0 <= i < |digits| ==> digits[i] < |AllDigits|
    ensures |row| == DigitLen * |digits|
  {
    if digits == [] then "" else AllDigits[digits[0]].lines[r] + RenderRow(digits[1..], r)
  }

  /** `display` is exactly what the machine prints for `digits`. */
  predicate Shows(display: Display, digits: seq<nat>) {
    && (forall i :: 0 <= i < |digits| ==> digits[i] < |AllDigits|)
    && display.lines[0] == RenderRow(digits, 0)
    && display.lines[1] == RenderRow(digits, 1)
    && display.lines[2] == RenderRow(digits, 2)
  }

  /** Block `i` of a printed row is row `r` of the glyph of the i-th digit. */
  lemma {:induction false} RenderRowSlice(digits: seq<nat>, r: nat, i: nat)
    requires r < LinesInDigit && i < |digits|
    requires forall j :: 0 <= j < |digits| ==> digits[j] < |AllDigits|
    ensures Slice(RenderRow(digits, r), i) == AllDigits[digits[i]].lines[r]
  {
    var head := AllDigits[digits[0]].lines[r];
    var row := RenderRow(digits, r);
    if i == 0 {
      assert row == head + RenderRow(digits[1..], r);
    } else {
      RenderRowSlice(digits[1..], r, i - 1);
      assert row[3 * i .. 3 * i + DigitLen] == RenderRow(digits[1..], r)[3 * (i - 1) .. 3 * (i - 1) + DigitLen];
    }
  }

  /** Cutting block `i` out of a printed display gives back the i-th canonical glyph. */
  lemma ExtractShown(display: Display, digits: seq<nat>, i: nat)
    requires Shows(display, digits) && i < |digits|
    ensures Fits(display, i)
    ensures ExtractDigit(display, i) == Ok(AllDigits[digits[i]])
  {
    RenderRowSlice(digits, 0, i);
    RenderRowSlice(digits, 1, i);
    RenderRowSlice(digits, 2, i);
    CanonicalAreGlyphs();
    assert Block(display, i).lines == AllDigits[digits[i]].lines;
  }

  /** Round trip: reading a printed nine-digit display gives back its digits. */
  lemma ParseShown(display: Display, digits: seq<nat>)
    requires Shows(display, digits) && |digits| == DigitsOnDisplay
    ensures Wide(display)
    ensures ParseDisplay(display) == Ok(digits)
  {
    forall p | 0 <= p < DigitsOnDisplay
      ensures ExtractDigit(display, p) == Ok(AllDigits[digits[p]])
      ensures ParseDigit(AllDigits[digits[p]]) == digits[p]
    {
      ExtractShown(display, digits, p);
      ParseCanonical(digits[p]);
    }
    var r := ParseDisplay(display);
    assert r.Ok?;
    assert r.value == digits;
  }
}

=== FILE: bank_ocr_fixtures.dfy ===
/**
  The displays the bank OCR tests read, and what the tests expect of them.
 */
module BankOcrFixtures {
  import opened BankOcr

  const DisplayAll0: Display := Display([" _  _  _  _  _  _  _  _  _ ",
                                         "| || || || || || || || || |",
                                         "|_||_||_||_||_||_||_||_||_|"])
  const DisplayAll1: Display := Display(["                           ",
                                         "  |  |  |  |  |  |  |  |  |",
                                         "  |  |  |  |  |  |  |  |  |"])
  const DisplayAll2: Display := Display([" _  _  _  _  _  _  _  _  _ ",
                                         " _| _| _| _| _| _| _| _| _|",
                                         "|_ |_ |_ |_ |_ |_ |_ |_ |_ "])
  const DisplayAll3: Display := Display([" _  _  _  _  _  _  _  _  _ ",
                                         " _| _| _| _| _| _| _| _| _|",
                                         " _| _| _| _| _| _| _| _| _|"])
  const DisplayAll4: Display := Display(["                           ",
                                         "|_||_||_||_||_||_||_||_||_|",
                                         "  |  |  |  |  |  |  |  |  |"])
  const DisplayAll5: Display := Display([" _  _  _  _  _  _  _  _  _ ",
                                         "|_ |_ |_ |_ |_ |_ |_ |_ |_ ",
                                         " _| _| _| _| _| _| _| _| _|"])
  const DisplayAll6: Display := Display([" _  _  _  _  _  _  _  _  _ ",
                                         "|_ |_ |_ |_ |_ |_ |_ |_ |_ ",
                                         "|_||_||_||_||_||_||_||_||_|"])
  const DisplayAll7: Display := Display([" _  _  _  _  _  _  _  _  _ ",
                                         "  |  |  |  |  |  |  |  |  |",
                                         "  |  |  |  |  |  |  |  |  |"])
  const DisplayAll8: Display := Display([" _  _  _  _  _  _  _  _  _ ",
                                         "|_||_||_||_||_||_||_||_||_|",
                                         "|_||_||_||_||_||_||_||_||_|"])
  const DisplayAll9: Display := Display([" _  _  _  _  _  _  _  _  _ ",
                                         "|_||_||_||_||_||_||_||_||_|",
                                         " _| _| _| _| _| _| _| _| _|"])

  const Display123456789: Display := Display(["    _  _     _  _  _  _  _ ",
                                              "  | _| _||_||_ |_   ||_||_|",
                                              "  ||_  _|  | _||_|  ||_| _|"])

  /** A display with '#' in the first block's second and third rows. */
  const InvalidCharDisplay: Display := Display([" _  _  _  _  _  _  _  _  _ ",
                                                "# || || || || || || || || |",
                                                "|#||_||_||_||_||_||_||_||_|"])

  /** The nine digits 1, 2, ..., 9. */
  const OneToNine: seq<nat> := [1, 2, 3, 4, 5, 6, 7, 8, 9]

  /** Nine copies of the digit d. */
  function Nine(d: nat): (digits: seq<nat>)
    ensures |digits| == DigitsOnDisplay && forall i :: 0 <= i < |digits| ==> digits[i] == d
  {
    [d, d, d, d, d, d, d, d, d]
  }

  // Each fixture row is checked against the printed row in a lemma of its own,
  // which keeps every proof about one 27-character string small.
  lemma All0TopRow()
    ensures DisplayAll0.lines[0] == RenderRow(Nine(0), 0)
  {
  }
  lemma All0MiddleRow()
    ensures DisplayAll0.lines[1] == RenderRow(Nine(0), 1)
  {
  }
  lemma All0BottomRow()
    ensures DisplayAll0.lines[2] == RenderRow(Nine(0), 2)
  {
  }
  lemma All1TopRow()
    ensures DisplayAll1.lines[0] == RenderRow(Nine(1), 0)
  {
  }
  lemma All1MiddleRow()
    ensures DisplayAll1.lines[1] == RenderRow(Nine(1), 1)
  {
  }
  lemma All1BottomRow()
    ensures DisplayAll1.lines[2] == RenderRow(Nine(1), 2)
  {
  }
  lemma All2TopRow()
    ensures DisplayAll2.lines[0] == RenderRow(Nine(2), 0)
  {
  }
  lemma All2MiddleRow()
    ensures DisplayAll2.lines[1] == RenderRow(Nine(2), 1)
  {
  }
  lemma All2BottomRow()
    ensures DisplayAll2.lines[2] == RenderRow(Nine(2), 2)
  {
  }
  lemma All3TopRow()
    ensures DisplayAll3.lines[0] == RenderRow(Nine(3), 0)
  {
  }
  lemma All3MiddleRow()
    ensures DisplayAll3.lines[1] == RenderRow(Nine(3), 1)
  {
  }
  lemma All3BottomRow()
    ensures DisplayAll3.lines[2] == RenderRow(Nine(3), 2)
  {
  }
  lemma All4TopRow()
    ensures DisplayAll4.lines[0] == RenderRow(Nine(4), 0)
  {
  }
  lemma All4MiddleRow()
    ensures DisplayAll4.lines[1] == RenderRow(Nine(4), 1)
  {
  }
  lemma All4BottomRow()
    ensures DisplayAll4.lines[2] == RenderRow(Nine(4), 2)
  {
  }
  lemma All5TopRow()
    ensures DisplayAll5.lines[0] == RenderRow(Nine(5), 0)
  {
  }
  lemma All5MiddleRow()
    ensures DisplayAll5.lines[1] == RenderRow(Nine(5), 1)
  {
  }
  lemma All5BottomRow()
    ensures DisplayAll5.lines[2] == RenderRow(Nine(5), 2)
  {
  }
  lemma All6TopRow()
    ensures DisplayAll6.lines[0] == RenderRow(Nine(6), 0)
  {
  }
  lemma All6MiddleRow()
    ensures DisplayAll6.lines[1] == RenderRow(Nine(6), 1)
  {
  }
  lemma All6BottomRow()
    ensures DisplayAll6.lines[2] == RenderRow(Nine(6), 2)
  {
  }
  lemma All7TopRow()
    ensures DisplayAll7.lines[0] == RenderRow(Nine(7), 0)
  {
  }
  lemma All7MiddleRow()
    ensures DisplayAll7.lines[1] == RenderRow(Nine(7), 1)
  {
  }
  lemma All7BottomRow()
    ensures DisplayAll7.lines[2] == RenderRow(Nine(7), 2)
  {
  }
  lemma All8TopRow()
    ensures DisplayAll8.lines[0] == RenderRow(Nine(8), 0)
  {
  }
  lemma All8MiddleRow()
    ensures DisplayAll8.lines[1] == RenderRow(Nine(8), 1)
  {
  }
  lemma All8BottomRow()
    ensures DisplayAll8.lines[2] == RenderRow(Nine(8), 2)
  {
  }
  lemma All9TopRow()
    ensures DisplayAll9.lines[0] == RenderRow(Nine(9), 0)
  {
  }
  lemma All9MiddleRow()
    ensures DisplayAll9.lines[1] == RenderRow(Nine(9), 1)
  {
  }
  lemma All9BottomRow()
    ensures DisplayAll9.lines[2] == RenderRow(Nine(9), 2)
  {
  }
  lemma OneToNineTopRow()
    ensures Display123456789.lines[0] == RenderRow(OneToNine, 0)
  {
  }
  lemma OneToNineMiddleRow()
    ensures Display123456789.lines[1] == RenderRow(OneToNine, 1)
  {
  }
  lemma OneToNineBottomRow()
    ensures Display123456789.lines[2] == RenderRow(OneToNine, 2)
  {
  }
  /**
    A display that prints nine copies of d has the canonical glyph of d in
    every block, and reads as d nine times.
   */
  lemma ReadsUniform(display: Display, d: nat)
    requires Shows(display, Nine(d))
    ensures Wide(display)
    ensures forall i :: 0 <= i < DigitsOnDisplay ==> ExtractDigit(display, i) == Ok(AllDigits[d])
    ensures ParseDisplay(display) == Ok(Nine(d))
  {
    forall i | 0 <= i < DigitsOnDisplay
      ensures ExtractDigit(display, i) == Ok(AllDigits[d])
    {
      ExtractShown(display, Nine(d), i);
    }
    ParseShown(display, Nine(d));
  }

  /** Every block of the all-0 display is the canonical 0; the display reads 0 nine times. */
  lemma ReadsAll0()
    ensures Wide(DisplayAll0)
    ensures forall i :: 0 <= i < DigitsOnDisplay ==> ExtractDigit(DisplayAll0, i) == Ok(Digit0)
    ensures ParseDisplay(DisplayAll0) == Ok(Nine(0))
  {
    All0TopRow(); All0MiddleRow(); All0BottomRow();
    ReadsUniform(DisplayAll0, 0);
  }

  /** Every block of the all-1 display is the canonical 1; the display reads 1 nine times. */
  lemma ReadsAll1()
    ensures Wide(DisplayAll1)
    ensures forall i :: 0 <= i < DigitsOnDisplay ==> ExtractDigit(DisplayAll1, i) == Ok(Digit1)
    ensures ParseDisplay(DisplayAll1) == Ok(Nine(1))
  {
    All1TopRow(); All1MiddleRow(); All1BottomRow();
    ReadsUniform(DisplayAll1, 1);
  }

  /** Every block of the all-2 display is the canonical 2; the display reads 2 nine times. */
  lemma ReadsAll2()
    ensures Wide(DisplayAll2)
    ensures forall i :: 0 <= i < DigitsOnDisplay ==> ExtractDigit(DisplayAll2, i) == Ok(Digit2)
    ensures ParseDisplay(DisplayAll2) == Ok(Nine(2))
  {
    All2TopRow(); All2MiddleRow(); All2BottomRow();
    ReadsUniform(DisplayAll2, 2);
  }

  /** Every block of the all-3 display is the canonical 3; the display reads 3 nine times. */
  lemma ReadsAll3()
    ensures Wide(DisplayAll3)
    ensures forall i :: 0 <= i < DigitsOnDisplay ==> ExtractDigit(DisplayAll3, i) == Ok(Digit3)
    ensures ParseDisplay(DisplayAll3) == Ok(Nine(3))
  {
    All3TopRow(); All3MiddleRow(); All3BottomRow();
    ReadsUniform(DisplayAll3, 3);
  }

  /** Every block of the all-4 display is the canonical 4; the display reads 4 nine times. */
  lemma ReadsAll4()
    ensures Wide(DisplayAll4)
    ensures forall i :: 0 <= i < DigitsOnDisplay ==> ExtractDigit(DisplayAll4, i) == Ok(Digit4)
    ensures ParseDisplay(DisplayAll4) == Ok(Nine(4))
  {
    All4TopRow(); All4MiddleRow(); All4BottomRow();
    ReadsUniform(DisplayAll4, 4);
  }

  /** Every block of the all-5 display is the canonical 5; the display reads 5 nine times. */
  lemma ReadsAll5()
    ensures Wide(DisplayAll5)
    ensures forall i :: 0 <= i < DigitsOnDisplay ==> ExtractDigit(DisplayAll5, i) == Ok(Digit5)
    ensures ParseDisplay(DisplayAll5) == Ok(Nine(5))
  {
    All5TopRow(); All5MiddleRow(); All5BottomRow();
    ReadsUniform(DisplayAll5, 5);
  }

  /** Every block of the all-6 display is the canonical 6; the display reads 6 nine times. */
  lemma ReadsAll6()
    ensures Wide(DisplayAll6)
    ensures forall i :: 0 <= i < DigitsOnDisplay ==> ExtractDigit(DisplayAll6, i) == Ok(Digit6)
    ensures ParseDisplay(DisplayAll6) == Ok(Nine(6))
  {
    All6TopRow(); All6MiddleRow(); All6BottomRow();
    ReadsUniform(DisplayAll6, 6);
  }

  /** Every block of the all-7 display is the canonical 7; the display reads 7 nine times. */
  lemma ReadsAll7()
    ensures Wide(DisplayAll7)
    ensures forall i :: 0 <= i < DigitsOnDisplay ==> ExtractDigit(DisplayAll7, i) == Ok(Digit7)
    ensures ParseDisplay(DisplayAll7) == Ok(Nine(7))
  {
    All7TopRow(); All7MiddleRow(); All7BottomRow();
    ReadsUniform(DisplayAll7, 7);
  }

  /** Every block of the all-8 display is the canonical 8; the display reads 8 nine times. */
  lemma ReadsAll8()
    ensures Wide(DisplayAll8)
    ensures forall i :: 0 <= i < DigitsOnDisplay ==> ExtractDigit(DisplayAll8, i) == Ok(Digit8)
    ensures ParseDisplay(DisplayAll8) == Ok(Nine(8))
  {
    All8TopRow(); All8MiddleRow(); All8BottomRow();
    ReadsUniform(DisplayAll8, 8);
  }

  /** Every block of the all-9 display is the canonical 9; the display reads 9 nine times. */
  lemma ReadsAll9()
    ensures Wide(DisplayAll9)
    ensures forall i :: 0 <= i < DigitsOnDisplay ==> ExtractDigit(DisplayAll9, i) == Ok(Digit9)
    ensures ParseDisplay(DisplayAll9) == Ok(Nine(9))
  {
    All9TopRow(); All9MiddleRow(); All9BottomRow();
    ReadsUniform(DisplayAll9, 9);
  }

  /** Block i of the 123456789 display is the canonical glyph of i + 1; the display reads 123456789. */
  lemma Reads123456789()
    ensures Wide(Display123456789)
    ensures forall i :: 0 <= i < DigitsOnDisplay ==> ExtractDigit(Display123456789, i) == Ok(AllDigits[i + 1])
    ensures ParseDisplay(Display123456789) == Ok(OneToNine)
  {
    OneToNineTopRow(); OneToNineMiddleRow(); OneToNineBottomRow();
    forall i | 0 <= i < DigitsOnDisplay
      ensures ExtractDigit(Display123456789, i) == Ok(AllDigits[i + 1])
    {
      ExtractShown(Display123456789, OneToNine, i);
    }
    ParseShown(Display123456789, OneToNine);
  }

  /** The fifth block of the 123456789 display is the canonical 5, and it reads as 5. */
  lemma FifthDigitIsFive()
    ensures Wide(Display123456789)
    ensures ExtractDigit(Display123456789, 4) == Ok(Digit5)
    ensures ParseDigit(Digit5) == 5
  {
    Reads123456789();
    ParseCanonical(5);
  }

  /** The '#' in the first block makes its extraction fail. */
  lemma InvalidCharFails()
    ensures Fits(InvalidCharDisplay, 0)
    ensures ExtractDigit(InvalidCharDisplay, 0) == Err(WrongChar)
  {
    assert !Allowed(InvalidCharDisplay.lines[1][0]);
    ExtractFailsIffBadChar(InvalidCharDisplay, 0);
  }

  /** Two different canonical glyphs compare unequal, and a glyph equals itself. */
  lemma ZeroIsNotEight()
    ensures DigitEquals(Digit0, Digit0)
    ensures !DigitEquals(Digit0, Digit8)
  {
    assert Digit0.lines[1] != Digit8.lines[1] by {
      assert Digit0.lines[1][1] != Digit8.lines[1][1];
    }
  }
}

=== FILE: coffee.dfy ===
/**
  Coffee machine: `CoffeeMachine::CreateCoffee` drives an automated source of
  ingredients through a fixed sequence of calls, chosen by the cup size and
  the kind of coffee. The source is modelled as an object that records every
  call made on it, in order.
 */
module CoffeeMachines {

  /** Cup sizes; each size's value is its weight in grams. */
  datatype Cup = Normal | Big {
    function Grams(): int {
      match this
      case Normal => 100
      case Big => 140
    }
  }

  datatype Coffee = Americano | Cappuccino

  /** One call on the source of ingredients, with its arguments. */
  datatype Call =
    | SetCupSize(gram: int)
    | AddWater(gram: int, temperature: int)
    | AddSugar(gram: int)
    | AddCoffee(gram: int)
    | AddMilk(gram: int)
    | AddMilkFoam(gram: int)
    | AddChocolate(gram: int)
    | AddCream(gram: int)

  /** Both calls go to the same method of the source. */
  predicate SameMethod(a: Call, b: Call) {
    || (a.SetCupSize? && b.SetCupSize?)
    || (a.AddWater? && b.AddWater?)
    || (a.AddSugar? && b.AddSugar?)
    || (a.AddCoffee? && b.AddCoffee?)
    || (a.AddMilk? && b.AddMilk?)
    || (a.AddMilkFoam? && b.AddMilkFoam?)
    || (a.AddChocolate? && b.AddChocolate?)
    || (a.AddCream? && b.AddCream?)
  }

  /** The source of ingredients, keeping the log of the calls made on it. */
  class SourceOfIngredients {
    var log: seq<Call>

    constructor ()
      ensures log == []
    {
      log := [];
    }

    method SetCupSize(gram: int)
      modifies this
      ensures log == old(log) + [Call.SetCupSize(gram)]
    {
      log := log + [Call.SetCupSize(gram)];
    }

    method AddWater(gram: int, temperature: int)
      modifies this
      ensures log == old(log) + [Call.AddWater(gram, temperature)]
    {
      log := log + [Call.AddWater(gram, temperature)];
    }

    method AddSugar(gram: int)
      modifies this
      ensures log == old(log) + [Call.AddSugar(gram)]
    {
      log := log + [Call.AddSugar(gram)];
    }

    method AddCoffee(gram: int)
      modifies this
      ensures log == old(log) + [Call.AddCoffee(gram)]
    {
      log := log + [Call.AddCoffee(gram)];
    }

    method AddMilk(gram: int)
      modifies this
      ensures log == old(log) + [Call.AddMilk(gram)]
    {
      log := log + [Call.AddMilk(gram)];
    }

    method AddMilkFoam(gram: int)
      modifies this
      ensures log == old(log) + [Call.AddMilkFoam(gram)]
    {
      log := log + [Call.AddMilkFoam(gram)];
    }

    method AddChocolate(gram: int)
      modifies this
      ensures log == old(log) + [Call.AddChocolate(gram)]
    {
      log := log + [Call.AddChocolate(gram)];
    }

    method AddCream(gram: int)
      modifies this
      ensures log == old(log) + [Call.AddCream(gram)]
    {
      log := log + [Call.AddCream(gram)];
    }
  }

  /** The ingredient calls for a normal (100 g) cup. */
  function NormalRecipe(coffee: Coffee): seq<Call> {
    match coffee
    case Americano => [AddCoffee(75), AddWater(25, 60)]
    case Cappuccino => [AddCoffee(33), AddMilk(33), AddMilkFoam(33)]
  }

  /** The ingredient calls for a big (140 g) cup: there is no Cappuccino case. */
  function BigRecipe(coffee: Coffee): seq<Call> {
    match coffee
    case Americano => [AddCoffee(105), AddWater(35, 60)]
    case Cappuccino => []
  }

  /** Every call `CreateCoffee` makes, in order: the cup size first, then the ingredients. */
  function Recipe(cup: Cup, coffee: Coffee): seq<Call> {
    [SetCupSize(cup.Grams())] +
    match cup
    case Normal => NormalRecipe(coffee)
    case Big => BigRecipe(coffee)
  }

  class CoffeeMachine {
    /** The source of ingredients the machine drives (held by reference). */
    const source: SourceOfIngredients

    constructor (source: SourceOfIngredients)
      ensures this.source == source
    {
      this.source := source;
    }

    /** Makes one coffee: the source receives exactly the calls of `Recipe(cup, coffee)`. */
    method CreateCoffee(cup: Cup, coffee: Coffee)
      modifies source
      ensures source.log == old(source.log) + Recipe(cup, coffee)
    {
      source.SetCupSize(cup.Grams());
      match cup {
        case Normal => CreateNormalCoffee(coffee);
        case Big => CreateBigCoffee(coffee);
      }
    }

    method CreateNormalCoffee(coffee: Coffee)
      modifies source
      ensures source.log == old(source.log) + NormalRecipe(coffee)
    {
      match coffee {
        case Americano =>
          source.AddCoffee(75);
          source.AddWater(25, 60);
        case Cappuccino =>
          source.AddCoffee(33);
          source.AddMilk(33);
          source.AddMilkFoam(33);
      }
    }

    method CreateBigCoffee(coffee: Coffee)
      modifies source
      ensures source.log == old(source.log) + BigRecipe(coffee)
    {
      match coffee {
        case Americano =>
          source.AddCoffee(105);
          source.AddWater(35, 60);
        case Cappuccino =>
      }
    }

    /**
      `CreateCoffee` with the big cappuccino filled as its test expects: the
      source's log grows by exactly the proportional recipe.
     */
    method CreateCoffeeCorrected(cup: Cup, coffee: Coffee)
      modifies source
      ensures source.log == old(source.log) + ProportionalRecipe(cup, coffee)
    {
      ProportionalRecipeMatchesTests();
      source.SetCupSize(cup.Grams());
      match cup {
        case Normal => CreateNormalCoffee(coffee);
        case Big => CreateBigCoffeeCorrected(coffee);
      }
    }

    /** `CreateBigCoffee` with the missing cappuccino case: 46 g each of coffee, milk and milk foam. */
    method CreateBigCoffeeCorrected(coffee: Coffee)
      modifies source
      ensures source.log == old(source.log) + ProportionalRecipe(Big, coffee)[1..]
    {
      match coffee {
        case Americano =>
          source.AddCoffee(105);
          source.AddWater(35, 60);
        case Cappuccino =>
          source.AddCoffee(46);
          source.AddMilk(46);
          source.AddMilkFoam(46);
      }
    }
  }

  /** The cup size is set first, with the cup's weight, and never again. */
  lemma CupSizeSetOnceFirst(cup: Cup, coffee: Coffee)
    ensures Recipe(cup, coffee) != []
    ensures Recipe(cup, coffee)[0] == SetCupSize(cup.Grams())
    ensures forall i :: 0 < i < |Recipe(cup, coffee)| ==> !Recipe(cup, coffee)[i].SetCupSize?
  {
  }

  /** No method of the source is called twice while making one coffee. */
  lemma NoMethodCalledTwice(cup: Cup, coffee: Coffee)
    ensures forall i, j :: 0 <= i < j < |Recipe(cup, coffee)| ==>
      !SameMethod(Recipe(cup, coffee)[i], Recipe(cup, coffee)[j])
  {
  }

  /** Sugar, chocolate and cream are never added. */
  lemma NoSugarChocolateOrCream(cup: Cup, coffee: Coffee)
    ensures forall i :: 0 <= i < |Recipe(cup, coffee)| ==>
      var c := Recipe(cup, coffee)[i];
      !c.AddSugar? && !c.AddChocolate? && !c.AddCream?
  {
  }

  /** An americano fills the cup exactly with coffee and water, the water at 60 degrees. */
  lemma AmericanoFillsCup(cup: Cup)
    ensures var r := Recipe(cup, Americano);
      |r| == 3 && r[1].AddCoffee? && r[2].AddWater? &&
      r[1].gram + r[2].gram == cup.Grams() && r[2].temperature == 60
  {
  }

  /**
    The calls `CreateCoffee` makes for three of the four drinks, in its own
    order; the tests check each call once and in any order (see
    `AmericanoCallsOfTest`, `AmericanoBigCallsOfTest`, `CappuccinoCallsOfTest`
    and `CappuccinoBigCallsOfTest`).
   */
  lemma TracesOfTests()
    ensures Recipe(Normal, Americano) == [SetCupSize(100), AddCoffee(75), AddWater(25, 60)]
    ensures Recipe(Big, Americano) == [SetCupSize(140), AddCoffee(105), AddWater(35, 60)]
    ensures Recipe(Normal, Cappuccino) == [SetCupSize(100), AddCoffee(33), AddMilk(33), AddMilkFoam(33)]
  {
  }

  /**
    What the tests at lines 144-196 of 06_coffee/test.cpp check is each expected call exactly once,
    in any order: the log as a multiset. The code as written meets this for
    the first three drinks; for the big cappuccino only the proportional
    recipe does.
   */
  lemma AmericanoCallsOfTest()
    ensures multiset(Recipe(Normal, Americano)) == multiset{AddCoffee(75), SetCupSize(100), AddWater(25, 60)}
  {
    TracesOfTests();
  }

  lemma AmericanoBigCallsOfTest()
    ensures multiset(Recipe(Big, Americano)) == multiset{AddCoffee(105), SetCupSize(140), AddWater(35, 60)}
  {
    TracesOfTests();
  }

  lemma CappuccinoCallsOfTest()
    ensures multiset(Recipe(Normal, Cappuccino)) == multiset{SetCupSize(100), AddCoffee(33), AddMilk(33), AddMilkFoam(33)}
  {
    TracesOfTests();
  }

  lemma CappuccinoBigCallsOfTest()
    ensures multiset(ProportionalRecipe(Big, Cappuccino)) == multiset{SetCupSize(140), AddCoffee(46), AddMilk(46), AddMilkFoam(46)}
    ensures multiset(Recipe(Big, Cappuccino)) != multiset{SetCupSize(140), AddCoffee(46), AddMilk(46), AddMilkFoam(46)}
  {
    BigCappuccinoIsEmpty();
    assert AddCoffee(46) !in multiset(Recipe(Big, Cappuccino));
  }

  /**
    The drinks as the recipes describe them: an americano is coffee and water
    3:1 at 60 degrees, a cappuccino equal thirds of coffee, milk and milk foam
    (rounded down to whole grams).
   */
  function ProportionalRecipe(cup: Cup, coffee: Coffee): seq<Call> {
    var g := cup.Grams();
    [SetCupSize(g)] +
    match coffee
    case Americano => [AddCoffee(g - g / 4), AddWater(g / 4, 60)]
    case Cappuccino => [AddCoffee(g / 3), AddMilk(g / 3), AddMilkFoam(g / 3)]
  }

  /**
    As written, a big cappuccino only sets the cup size: nothing goes into
    the cup, where the recipe (and the test of a big cappuccino) asks for
    46 g each of coffee, milk and milk foam.
   */
  lemma BigCappuccinoIsEmpty()
    ensures Recipe(Big, Cappuccino) == [SetCupSize(140)]
    ensures ProportionalRecipe(Big, Cappuccino) == [SetCupSize(140), AddCoffee(46), AddMilk(46), AddMilkFoam(46)]
    ensures Recipe(Big, Cappuccino) != ProportionalRecipe(Big, Cappuccino)
  {
  }

  /**
    The proportional recipes give every call the machine's tests
    expect, the big cappuccino included, and agree with the machine as
    written on every other drink.
   */
  lemma ProportionalRecipeMatchesTests()
    ensures ProportionalRecipe(Big, Cappuccino) == [SetCupSize(140), AddCoffee(46), AddMilk(46), AddMilkFoam(46)]
    ensures forall cup, coffee :: (cup, coffee) != (Big, Cappuccino) ==>
      ProportionalRecipe(cup, coffee) == Recipe(cup, coffee)
  {
    forall cup, coffee | (cup, coffee) != (Big, Cappuccino)
      ensures ProportionalRecipe(cup, coffee) == Recipe(cup, coffee)
    {
      TracesOfTests();
    }
  }

  /** A machine making one coffee on a fresh source, as the tests drive it. */
  method MakeOne(cup: Cup, coffee: Coffee) returns (log: seq<Call>)
    ensures log == Recipe(cup, coffee)
  {
    var source := new SourceOfIngredients();
    var machine := new CoffeeMachine(source);
    machine.CreateCoffee(cup, coffee);
    log := source.log;
  }

  /** The corrected machine making one coffee on a fresh source. */
  method MakeOneCorrected(cup: Cup, coffee: Coffee) returns (log: seq<Call>)
    ensures log == ProportionalRecipe(cup, coffee)
  {
    var source := new SourceOfIngredients();
    var machine := new CoffeeMachine(source);
    machine.CreateCoffeeCorrected(cup, coffee);
    log := source.log;
  }
}

=== FILE: ternary.dfy ===
/**
  Ternary numbers: `parse_ternary` reads a string of the symbols '0', '1'
  and '2' as a base-3 number, the last symbol being the 1's place. An empty
  string, or a string holding any other symbol anywhere, reads as 0.
 */
module TernaryNumbers {

  /** `BASE` of the parser. */
  const Base: nat := 3

  /** Number of values of `uint32_t`. */
  const Uint32Modulus: nat := 0x1_0000_0000

  predicate IsTernaryDigit(c: char) {
    '0' <= c <= '2'
  }

  /** A string made only of ternary symbols (the empty string included). */
  predicate IsTernary(s: string) {
    forall i :: 0 <= i < |s| ==> IsTernaryDigit(s[i])
  }

  function DigitOf(c: char): (d: nat)
    requires IsTernaryDigit(c)
  {
    c as int - '0' as int
  }

  /**
    The parser's `str[i] - '0'` stored into a `uint32_t`: the difference is
    an `int` and the conversion wraps it modulo 2^32, so a symbol below '0'
    gives a huge value rather than a negative one. Exactly the three ternary
    symbols give a value below the base, and for them it is the digit.
   */
  function DigitCode(c: char): (v: nat)
    ensures v < Uint32Modulus
    ensures v < Base <==> IsTernaryDigit(c)
    ensures IsTernaryDigit(c) ==> v == DigitOf(c)
    ensures c < '0' ==> v >= Uint32Modulus - '0' as int
  {
    (c as int - '0' as int) % Uint32Modulus
  }

  /** 3^n, computed exactly (the source calls floating-point `std::pow`). */
  function Pow3(n: nat): (p: nat)
    ensures p >= 1
  {
    if n == 0 then 1 else Base * Pow3(n - 1)
  }

  /**
    Place-value reading of a ternary string: the symbol at position i of an
    n-symbol string weighs 3^(n-1-i). It always fits in n base-3 places.
   */
  function Value(s: string): (v: nat)
    requires IsTernary(s)
    ensures v < Pow3(|s|)
  {
    if s == [] then 0
    else
      var rest := Value(s[1..]);
      var d := DigitOf(s[0]);
      var p := Pow3(|s| - 1);
      assert d * p <= 2 * p;
      d * p + rest
  }

  /** Horner's reading of the same string, last symbol first. */
  function Horner(s: string): nat
    requires IsTernary(s)
  {
    if s == [] then 0 else Base * Horner(s[..|s| - 1]) + DigitOf(s[|s| - 1])
  }

  /** Appending a symbol multiplies the value by the base and adds the digit. */
  lemma {:induction false} ValueAppend(s: string, c: char)
    requires IsTernary(s) && IsTernaryDigit(c)
    ensures IsTernary(s + [c])
    ensures Value(s + [c]) == Base * Value(s) + DigitOf(c)
  {
    if s != [] {
      var t := s + [c];
      assert t[1..] == s[1..] + [c];
      ValueAppend(s[1..], c);
      var d, p := DigitOf(s[0]), Pow3(|s| - 1);
      calc {
        Value(t);
        d * Pow3(|s|) + Value(s[1..] + [c]);
        d * (Base * p) + Base * Value(s[1..]) + DigitOf(c);
        { assert d * (Base * p) == Base * (d * p); }
        Base * (d * p + Value(s[1..])) + DigitOf(c);
        Base * Value(s) + DigitOf(c);
      }
    }
  }

  /** The place-value reading and Horner's reading agree on every ternary string. */
  lemma {:induction false} ValueIsHorner(s: string)
    requires IsTernary(s)
    ensures Value(s) == Horner(s)
  {
    if s != [] {
      var init, last := s[..|s| - 1], s[|s| - 1];
      assert s == init + [last];
      ValueIsHorner(init);
      ValueAppend(init, last);
    }
  }

  /** Leading '0' symbols do not change the value. */
  lemma {:induction false} LeadingZeros(k: nat, s: string)
    requires IsTernary(s)
    ensures IsTernary(seq(k, _ => '0') + s)
    ensures Value(seq(k, _ => '0') + s) == Value(s)
  {
    if k > 0 {
      var z := seq(k, _ => '0') + s;
      assert z[1..] == seq(k - 1, _ => '0') + s;
      LeadingZeros(k - 1, s);
      assert z[0] == '0';
      assert Value(z) == DigitOf(z[0]) * Pow3(|z| - 1) + Value(z[1..]);
    } else {
      assert seq(k, _ => '0') + s == s;
    }
  }

  lemma {:induction false} Pow3Monotone(m: nat, n: nat)
    requires m <= n
    ensures Pow3(m) <= Pow3(n)
  {
    if m < n {
      Pow3Monotone(m, n - 1);
    }
  }

  lemma {:induction false} Pow3Add(m: nat, n: nat)
    ensures Pow3(m + n) == Pow3(m) * Pow3(n)
  {
    if m > 0 {
      Pow3Add(m - 1, n);
      assert Pow3(m + n) == Base * Pow3(m - 1 + n);
    }
  }

  /** A ternary string of at most 20 symbols has a value that fits in `uint32_t`. */
  lemma FitsUint32(s: string)
    requires IsTernary(s) && |s| <= 20
    ensures Value(s) < Uint32Modulus
  {
    Pow3Monotone(|s|, 20);
    assert Pow3(5) == 243;
    Pow3Add(5, 5);
    Pow3Add(10, 10);
  }

  /** One turn of the parser's loop, in place-value terms. */
  lemma ParseStep(str: string, i: nat)
    requires i < |str| && IsTernary(str[..i + 1])
    ensures IsTernary(str[..i])
    ensures Value(str[..i]) * Pow3(|str| - i) + DigitOf(str[i]) * Pow3(|str| - i - 1)
            == Value(str[..i + 1]) * Pow3(|str| - i - 1)
  {
    assert str[..i + 1] == str[..i] + [str[i]];
    ValueAppend(str[..i], str[i]);
    assert Pow3(|str| - i) == Base * Pow3(|str| - i - 1);
    Distribute(Value(str[..i]), DigitOf(str[i]), Pow3(|str| - i - 1));
  }

  lemma Distribute(a: int, v: int, p: int)
    ensures a * (Base * p) + v * p == (Base * a + v) * p
  {
  }

  /**
    `parse_ternary`: 0 for the empty string and for any string holding a
    non-ternary symbol (the loop returns 0 at the first one, even after a
    valid prefix), otherwise the place-value reading of the string. The loop
    adds digit * 3^(n-1-i) for each position i in turn.
   */
  method ParseTernary(str: string) returns (result: nat)
    ensures IsTernary(str) ==> result == Value(str)
    ensures !IsTernary(str) ==> result == 0
  {
    if |str| == 0 {
      return 0;
    }
    result := 0;
    for i := 0 to |str|
      invariant IsTernary(str[..i])
      invariant result == Value(str[..i]) * Pow3(|str| - i)
    {
      var v := DigitCode(str[i]);
      if v >= Base {
        return 0;
      }
      assert str[..i + 1] == str[..i] + [str[i]];
      ParseStep(str, i);
      result := result + v * Pow3(|str| - i - 1);
    }
    assert str[..|str|] == str;
  }

  /** The values the parser's tests expect. */
  lemma Examples()
    ensures Value("") == 0
    ensures Value("1") == 1
    ensures Value("10") == 3
    ensures Value("102012") == 302
    ensures !IsTernary("a10")
  {
    assert !IsTernaryDigit("a10"[0]);
  }
}
